=== FILE: README.md ===
# AREigo detection core in Dafny

AREigo is an iOS app. It points the camera at the world, boxes the objects a
Vision/Core ML detector recognises, labels each box in English and Japanese,
and lets the learner save words to a vocabulary list. This project models the
pure logic of that pipeline and proves properties about it:

- **Throttle gate** (`DetectorModel.process`). A two-field state machine
  (`isBusy`, `lastFrameTime`) admits a camera frame only when no request is
  outstanding and 0.12 s have passed since the last admitted frame.
- **Completion paths**. The Vision request can end in an error, recognised
  objects, classifications, results of another type, or a throwing
  `perform`. Every path clears `isBusy` and publishes a list.
- **Geometry**. `CGRect` over exact reals, `intersection`, `iou`, the
  conversion from Vision's normalised bottom-left-origin boxes to view
  rectangles, and the centred placeholder rectangle.
- **Overlap reduction** (`reduceOverlaps`). Sort by falling confidence, then
  keep each detection unless a kept one with the same English label overlaps
  it with IoU above 0.4.
- **Vocabulary upsert** (`save(observation:)`). Match case-insensitively. A hit
  bumps the count; a miss prepends a new item with count 1.
- **Label translation** (`LabelTranslator.japanese(for:)`). Lower-case the
  label, look it up in the fixed 80-entry English→Japanese table, and
  otherwise return the input unchanged.

Modules (one per file): `Wrappers` (`Option`), `Text` (lower-casing),
`Geometry`, `LabelTranslator`, `Detections`, `Vocab`, `Pipeline`.

Modelling choices:
- `CGFloat`, `Float` and `Double` become `real`, with no rounding.
- `Date()` becomes a parameter `now`, read once per `save`.
- Vision's answer becomes an `Outcome` value.
- The asynchronous queue hops become a sequential machine over two events:
  a frame arrives, or the outstanding request finishes.
- `Rect` keeps the raw origin and size. Its `MinX`/`MaxX`/`Width`/...
  accessors standardise negative sizes, as Core Graphics does.

The translator's only normalisation is lower-casing. There is no separator
replacement, no synonyms, no transliteration and no not-translated marker. An
unknown label comes back exactly as given, so `"cell_phone"` is returned
unchanged and `""` translates to `""`.

## Model

| member | source | states |
|---|---|---|
| Pipeline.Admit | AREigo/DetectorModel.swift:70-73 | A busy gate, or a frame less than 0.12 s after `lastFrameTime`, is left exactly as it was; otherwise the gate becomes busy with `lastFrameTime` set to the frame's time |
| Pipeline.Release | AREigo/DetectorModel.swift:88 | A completion clears `isBusy` and keeps `lastFrameTime` |
| Pipeline.GateStep | AREigo/DetectorModel.swift:70-73 | A completion leaves the gate idle with `lastFrameTime` kept; after a frame the gate is busy exactly when it was busy or admitted the frame, and `lastFrameTime` moves to the frame's time exactly when the frame is admitted |
| Pipeline.AdmittedFramesSpaced | AREigo/DetectorModel.swift:70-73 | Over any event sequence, admitted frames are at least 0.12 s apart, and the first is at least 0.12 s after the starting `lastFrameTime` |
| Pipeline.LastFrameTimeIsLastAdmitted | AREigo/DetectorModel.swift:72 | After any event sequence, `lastFrameTime` is the time of the last admitted frame, or unchanged if none was admitted |
| Pipeline.OneRequestInFlight | AREigo/DetectorModel.swift:71-73 | Admissions plus an initially outstanding request equal completions plus a finally outstanding request, so at most one request is in flight |
| Pipeline.AdmitsAfterRelease | AREigo/DetectorModel.swift:71-73 | Once the outstanding request has completed, a frame 0.12 s after the last admitted one is admitted |
| Pipeline.ThrottleScenarios | AREigo/DetectorModel.swift:71 | A frame 0.05 s later is dropped; a frame 0.15 s later is dropped while busy and admitted after completion |
| Pipeline.Labelled | AREigo/DetectorModel.swift:115-120 | A detection carries the class's identifier, its translation, its confidence and the given rectangle |
| Pipeline.DetectionFor | AREigo/DetectorModel.swift:96-103 | An object's detection carries its top label's identifier, its translation and its confidence, on its box converted to the view |
| Pipeline.ObjectDetections | AREigo/DetectorModel.swift:95-104 | Every produced detection is the detection of some labelled object; there are never more detections than objects, and exactly as many when every object has a label |
| Pipeline.ObjectDetectionsSingle | AREigo/DetectorModel.swift:95-104 | One object alone gives exactly one detection, its own, when it has a label, and none otherwise |
| Pipeline.ObjectDetectionsAppend | AREigo/DetectorModel.swift:95-104 | The detections of two runs of objects are those of the first run followed by those of the second; with `ObjectDetectionsSingle` this fixes the list exactly, in order and with multiplicity |
| Pipeline.NoObjectLost | AREigo/DetectorModel.swift:95-104 | Every object that has a label contributes its detection to the list |
| Pipeline.EveryObjectAccounted | AREigo/DetectorModel.swift:94-107 | From the detector, every labelled object's detection is published, or a published detection with its label, IoU above 0.4 and at least its confidence suppresses it |
| Pipeline.Publish | AREigo/DetectorModel.swift:89-166 | Both backends: an error, a throwing `perform`, unrecognised results and empty classifications publish `[]`; classifications publish exactly one detection, for the top class on the placeholder; object results publish `[]` from the built-in classifier; from the detector they publish a reduced list that is sorted, drawn from the detections, non-empty iff they are, free of same-label overlaps and accounting for every detection |
| Pipeline.Step | AREigo/DetectorModel.swift:68-73 | `isBusy` holds exactly while a request is in flight; a dropped frame changes nothing; an admitted frame records its view size; a completion clears the request and publishes; a completion with nothing in flight changes nothing |
| Pipeline.EveryCompletionClearsBusy | AREigo/DetectorModel.swift:88-165 | Every outcome, a throwing `perform` included, leaves the gate idle with `lastFrameTime` unchanged; errors, throws and unrecognised results publish `[]` |
| Pipeline.Run | AREigo/DetectorModel.swift:68-73 | Running any sequence of events keeps `isBusy` in step with the request in flight |
| Pipeline.RunFollowsGate | AREigo/DetectorModel.swift:70-73 | The pipeline's gate after any event sequence is the gate machine's result on the same frames and completions, so the spacing and one-in-flight lemmas apply to the whole pipeline |
| Geometry.Intersection | AREigo/DetectorModel.swift:203 | A non-null intersection has non-negative width and height |
| Geometry.IntersectionIsCommonPoints | AREigo/DetectorModel.swift:203-204 | A non-null intersection holds exactly the points both rectangles contain; a null one means no point is common to both |
| Geometry.IntersectionAreaBound | AREigo/DetectorModel.swift:205-206 | The intersection's area is at most the area of either rectangle |
| Geometry.IoU | AREigo/DetectorModel.swift:202-208 | IoU lies in [0, 1]; it is 0 for a null intersection; it is positive only when the intersection has positive area |
| Geometry.IoUSymmetric | AREigo/DetectorModel.swift:202-208 | IoU does not depend on argument order |
| Geometry.IoUSelf | AREigo/DetectorModel.swift:202-208 | A rectangle of positive area has IoU 1 with itself |
| Geometry.IoUNested | AREigo/DetectorModel.swift:202-208 | A rectangle inside another has IoU equal to the ratio of their areas |
| Geometry.IoUExample | AREigo/DetectorModel.swift:202-208 | A 10×6 box in the corner of a 10×10 box has IoU 0.6 |
| Geometry.VisionRectToViewRect | AREigo/DetectorModel.swift:193-200 | Width and height scale by the view size; the x extent scales by the view width; the vertical axis flips, so the box's bottom `minY` maps to `(1 - minY)·H` and its top to `(1 - maxY)·H`; nothing is clamped |
| Geometry.VisionRoundTrip | AREigo/DetectorModel.swift:193-200 | Converting a box to the view and back returns the box, for a box of non-negative width and height and a view of positive size |
| Geometry.ViewRoundTrip | AREigo/DetectorModel.swift:193-200 | Converting a view rectangle to a box and back returns the rectangle, for a rectangle of non-negative width and height and a view of positive size |
| Geometry.InsideViewIff | AREigo/DetectorModel.swift:193-200 | The view rectangle lies inside the view exactly when the box lies inside the unit square, and it reaches no lower than the view's bottom exactly when the box's `minY` is non-negative |
| Geometry.PlaceholderRect | AREigo/DetectorModel.swift:111-114 | The classification rectangle is 40% of the view's width and 30% of its height, centred, and inside the view |
| Detections.Suppresses | AREigo/DetectorModel.swift:213 | The `contains(where:)` test: same English label and IoU above 0.4; the relation is symmetric |
| Detections.GreedyKeep | AREigo/DetectorModel.swift:211-216 | The loop keeps no more detections than it is given, and only detections it is given |
| Detections.WithLabel | AREigo/DetectorModel.swift:213 | The filter holds exactly the detections carrying the given label |
| Detections.Insert | AREigo/DetectorModel.swift:212 | Inserting into a sorted list keeps it sorted, adds exactly the new detection, and leaves the new detection or the old head in front |
| Detections.SortByConfidence | AREigo/DetectorModel.swift:212 | The sorted list is a permutation of the input with non-increasing confidence |
| Detections.GreedyFromInput | AREigo/DetectorModel.swift:211-217 | The greedy pass keeps a sub-multiset of its input |
| Detections.GreedySorted | AREigo/DetectorModel.swift:212-215 | A sorted input gives a sorted output |
| Detections.GreedyKeepsFirst | AREigo/DetectorModel.swift:212-215 | The first detection is always kept, and it comes first |
| Detections.GreedyNoOverlap | AREigo/DetectorModel.swift:213-214 | No kept detection suppresses another kept one |
| Detections.GreedyAccountsForAll | AREigo/DetectorModel.swift:212-215 | On input sorted by falling confidence, every input detection is kept, or a kept detection with its label, IoU above 0.4 and at least its confidence suppresses it |
| Detections.GreedyAccountsForLast | AREigo/DetectorModel.swift:213-214 | The last detection taken is kept, or it is suppressed by a kept detection that is at least as confident |
| Detections.SuppressorsShareLabel | AREigo/DetectorModel.swift:213 | Only detections with the same English label can suppress a detection |
| Detections.GreedyPerLabel | AREigo/DetectorModel.swift:212-215 | Filtering the output by a label equals running the pass on that label's detections alone, so other labels never interfere |
| Detections.GreedyFixedPoint | AREigo/DetectorModel.swift:212-215 | A list with no suppressing pair passes through unchanged |
| Detections.GreedyIdempotent | AREigo/DetectorModel.swift:212-215 | Running the pass twice equals running it once |
| Detections.ReduceOverlaps | AREigo/DetectorModel.swift:210-218 | The result is sorted by non-increasing confidence, drawn from the input, empty iff the input is, led by a most confident input, free of same-label pairs with IoU above 0.4, and accounts for every input detection |
| Detections.PairOutcome | AREigo/DetectorModel.swift:213-215 | The second of two detections is dropped exactly when the first suppresses it |
| Detections.ReducePair | AREigo/DetectorModel.swift:210-218 | Of two detections, the more confident one survives alone when it suppresses the other, whatever the input order; different labels keep both |
| Detections.SortPair | AREigo/DetectorModel.swift:212 | Two detections of different confidence sort the more confident first, whatever the input order |
| Vocab.SameWord | AREigo/DetectorModel.swift:172 | Two words match when they have the same length and agree character by character after lower-casing |
| Vocab.FirstMatch | AREigo/DetectorModel.swift:172 | Finds the first entry whose word equals the observation's after lower-casing, or reports that none does |
| Vocab.Save | AREigo/DetectorModel.swift:171-189 | On a match at the first matching index, that entry's count grows by one and `lastSeenAt` becomes `now`, the length is kept, and every other entry is unchanged; with no match, a new item (the observation's words, count 1, both dates `now`) is put in front; the returned item is the entry as stored |
| Vocab.SaveThenFind | AREigo/DetectorModel.swift:171-189 | After a save, a case-insensitive lookup of the word finds the returned item |
| Vocab.SaveTwiceAddsOneEntry | AREigo/DetectorModel.swift:171-189 | Saving the same word twice adds at most one entry |
| Vocab.TotalCountBump | AREigo/DetectorModel.swift:174-176 | Bumping one entry's count raises the total count by one |
| Vocab.SaveCountsOnce | AREigo/DetectorModel.swift:171-189 | Every save raises the total count by exactly one |
| Vocab.SaveKeepsWordsUnique | AREigo/DetectorModel.swift:171-189 | A list without case-insensitive duplicates keeps that property through a save |
| Text.LowerChar | AREigo/LabelTranslator.swift:35 | An upper-case ASCII letter maps to its lower-case partner; every other character is kept |
| Text.Lower | AREigo/LabelTranslator.swift:35 | Lower-casing keeps the length and lower-cases each character |
| Text.LowerFixedPoint | AREigo/LabelTranslator.swift:35 | Lower-casing leaves a string unchanged exactly when the string has no upper-case letter |
| Text.LowerIdempotent | AREigo/LabelTranslator.swift:35 | Lower-casing is idempotent, and its result has no upper-case letter |
| LabelTranslator.Lookup | AREigo/LabelTranslator.swift:36 | Subscripting returns nothing exactly when the key is absent; otherwise it returns the value of an entry with that key |
| LabelTranslator.LookupFindsEntry | AREigo/LabelTranslator.swift:36 | With distinct keys, looking up a key returns that key's own entry |
| LabelTranslator.Japanese | AREigo/LabelTranslator.swift:34-37 | The result is either the input or the value of the table entry for the lower-cased input |
| LabelTranslator.TableWellFormed | AREigo/LabelTranslator.swift:13-32 | Every key is made of lower-case letters and spaces, and no key repeats |
| LabelTranslator.TranslatesKnownLabel | AREigo/LabelTranslator.swift:34-37 | A label whose lower-cased form is a key, in any casing, translates to that key's value |
| LabelTranslator.PassesUnknownLabel | AREigo/LabelTranslator.swift:36 | A label whose lower-cased form is not a key comes back unchanged, casing included |
| LabelTranslator.EveryEntryReachable | AREigo/LabelTranslator.swift:13-37 | Every key is lower-case and translates to its own value |
| LabelTranslator.SeparatorsPassThrough | AREigo/LabelTranslator.swift:35-36 | A label containing `_` or `-` is never a key and comes back unchanged |
| LabelTranslator.CaseInsensitiveHit | AREigo/LabelTranslator.swift:35 | Two labels that are equal after lower-casing and hit the table translate alike |
| LabelTranslator.DogInAnyCase | AREigo/LabelTranslator.swift:17 | "Dog" and "DOG" both translate to 犬 |
| LabelTranslator.CellPhoneInTitleCase | AREigo/LabelTranslator.swift:28 | "Cell Phone" translates to スマホ |
| LabelTranslator.UnderscoreIsKept | AREigo/LabelTranslator.swift:35-36 | "cell_phone" comes back unchanged |
| LabelTranslator.EmptyLabel | AREigo/LabelTranslator.swift:36 | The empty label is not a key and translates to the empty string |

## Left out

- Model loading from the bundle, building the Vision request and `VNImageRequestHandler.perform` (DetectorModel.swift:49-65, 75-87, 126-129) are framework calls. Their result is the `Outcome` value of a `RequestFinished` event.
- `DispatchQueue` hops and `@Published` updates are not modelled. Each completion, its `isBusy = false` and its publication are one atomic event. The unsynchronised writes of `isBusy` from the Vision queue and the main queue are outside this sequential model.
- `guard let self else { return }` (DetectorModel.swift:79) is not modelled. After the model object is released, nobody observes the gate.
- A completion handler that runs and a `perform` that then throws as well would publish twice. The model treats the two as alternative outcomes of one request.
- `UUID` ids of `Detection` and `VocabItem` are not modelled. `Date()` is the parameter `now`.
- Vocab.Save: a new item's `firstSavedAt` and `lastSeenAt` are both `now`. The source reads the clock twice (DetectorModel.swift:183-184), so the two dates can differ by the time between the calls.
- Persisting the vocabulary (`store.save`, VocabStore.swift) is file I/O and is not modelled.
- Detections.SortByConfidence: it is a stable insertion sort, while Swift's `sorted(by:)` does not promise any order for ties. Every property of the greedy pass and of `ReduceOverlaps` uses only non-increasing confidence, so it holds for any tie order. `ReducePair` and `SortPair` are stated for distinct confidences only.
- Text.LowerChar: maps ASCII `A`..`Z` only. Swift's `lowercased()` follows the Unicode case mappings, which can send a non-ASCII character to an ASCII letter. U+212A KELVIN SIGN becomes `k`, so `"\u{212A}ite"` translates to 凧 in the app but comes back unchanged from `Japanese`.
- Text.Lower: lower-cases ASCII `A`..`Z` only, for the same reason. A label made of ASCII characters is translated exactly as in the app, and two words are matched exactly as in the app when both are ASCII. When either word has a non-ASCII character the result may differ: a saved `"\u{212A}ite"` matches a new `"kite"` in `save` in the app but not here.
- Detections.Suppresses: compares `english` by code points. Swift's `==` at DetectorModel.swift:213 compares strings by canonical equivalence, so a precomposed and a decomposed accented label are one label in the app but two here. `Detections.WithLabel` and `Detections.GreedyPerLabel` inherit this.
- Vocab.SameWord: compares code points. Swift's `String ==` compares by canonical equivalence, so a precomposed and a decomposed accented word match in `save` (DetectorModel.swift:172) but not here.
- LabelTranslator.Lookup: compares keys by code points. Swift's dictionary lookup also uses canonical equivalence; every table key is plain ASCII, where the two agree, but a label whose lower-cased form is only canonically equivalent to a key is not found here.
- Vocab.Save: `count` is an unbounded integer, so the overflow trap of Swift's `Int` at 2^63 - 1 is not modelled.
- Geometry.IoU: uses exact reals, so `CGFloat` rounding is not modelled.
- Geometry.Intersection: two rectangles that only touch along an edge give a zero-area rectangle, whatever Core Graphics returns there; IoU is 0 either way.
- The Core ML model name candidates (DetectorModel.swift:36-41) only select a file to load, and are not modelled.

=== FILE: detections.dfy ===
/**
 * `Detection` and `DetectorModel.reduceOverlaps`: greedy per-label
 * suppression. Detections are taken in order of falling confidence, and each
 * is kept unless an already kept detection with the same English label
 * overlaps it with IoU above 0.4.
 */
module Detections {
  import opened Geometry

  /** One labelled box on screen; the per-instance `id` is not modelled. */
  datatype Detection = Detection(english: string, japanese: string, rectOnScreen: Rect, confidence: real)

  /** IoU above which a kept detection suppresses another of the same label. */
  const OverlapThreshold: real := 0.4

  /**
   * The test inside `result.contains(where:)`: `kept` suppresses `d` when they
   * carry the same English label and overlap with IoU above the threshold.
   * The relation is symmetric.
   */
  function Suppresses(kept: Detection, d: Detection): (r: bool)
    ensures r <==> d.english == kept.english && IoU(d.rectOnScreen, kept.rectOnScreen) > OverlapThreshold
  {
    IoUSymmetric(kept.rectOnScreen, d.rectOnScreen);
    kept.english == d.english && IoU(kept.rectOnScreen, d.rectOnScreen) > OverlapThreshold
  }

  /** `result.contains(where:)`: some kept detection suppresses `d`. */
  predicate AnySuppresses(kept: seq<Detection>, d: Detection) {
    exists k :: k in kept && Suppresses(k, d)
  }

  /** Confidence never rises along the list. */
  predicate NonIncreasing(s: seq<Detection>) {
    forall i, j :: 0 <= i < j < |s| ==> s[i].confidence >= s[j].confidence
  }

  /** No kept detection suppresses another, in either direction. */
  predicate NoSameLabelOverlap(r: seq<Detection>) {
    forall i, j :: 0 <= i < |r| && 0 <= j < |r| && i != j ==> !Suppresses(r[i], r[j])
  }

  /**
   * `d` survives in `r`, or `r` holds a detection that suppresses it and is at
   * least as confident.
   */
  predicate Accounted(r: seq<Detection>, d: Detection) {
    d in r || exists k :: k in r && Suppresses(k, d) && k.confidence >= d.confidence
  }

  /** The detections of `s` labelled `name`, in their order. */
  function WithLabel(s: seq<Detection>, name: string): (r: seq<Detection>)
    ensures forall d :: d in r <==> d in s && d.english == name
  {
    if |s| == 0 then []
    else
      var rest := WithLabel(s[..|s| - 1], name);
      assert s == s[..|s| - 1] + [s[|s| - 1]];
      if s[|s| - 1].english == name then rest + [s[|s| - 1]] else rest
  }

  /** Places `d` before the first detection of `s` that is strictly less confident. */
  function Insert(d: Detection, s: seq<Detection>): (r: seq<Detection>)
    requires NonIncreasing(s)
    ensures NonIncreasing(r)
    ensures multiset(r) == multiset(s) + multiset{d}
    ensures r[0] == d || (|s| > 0 && r[0] == s[0])
  {
    if |s| == 0 || d.confidence >= s[0].confidence then [d] + s
    else
      var rest := Insert(d, s[1..]);
      assert s == [s[0]] + s[1..];
      [s[0]] + rest
  }

  /** `dets.sorted(by: { $0.confidence > $1.confidence })`, up to the order of ties. */
  function SortByConfidence(dets: seq<Detection>): (r: seq<Detection>)
    ensures NonIncreasing(r)
    ensures multiset(r) == multiset(dets)
  {
    if |dets| == 0 then []
    else
      assert dets == [dets[0]] + dets[1..];
      Insert(dets[0], SortByConfidence(dets[1..]))
  }

  /**
   * The loop of `reduceOverlaps` over a list in processing order: each
   * detection is appended unless a detection kept before it suppresses it.
   */
  function GreedyKeep(s: seq<Detection>): (r: seq<Detection>)
    ensures |r| <= |s|
    ensures forall d :: d in r ==> d in s
  {
    if |s| == 0 then []
    else
      var kept := GreedyKeep(s[..|s| - 1]);
      if AnySuppresses(kept, s[|s| - 1]) then kept else kept + [s[|s| - 1]]
  }

  /* The greedy pass, lemma by lemma: each is proved by induction on the input, last element first. */

  /** Every kept detection comes from the input, no more often than it occurs there. */
  lemma {:induction false} GreedyFromInput(s: seq<Detection>)
    ensures multiset(GreedyKeep(s)) <= multiset(s)
    ensures forall d :: d in GreedyKeep(s) ==> d in s
  {
    if |s| > 0 {
      var p, x := s[..|s| - 1], s[|s| - 1];
      assert s == p + [x];
      GreedyFromInput(p);
    }
  }

  /** On input sorted by falling confidence, the output is sorted too. */
  lemma {:induction false} GreedySorted(s: seq<Detection>)
    requires NonIncreasing(s)
    ensures NonIncreasing(GreedyKeep(s))
  {
    if |s| > 0 {
      var p, x := s[..|s| - 1], s[|s| - 1];
      GreedySorted(p);
      GreedyFromInput(p);
      var kept := GreedyKeep(p);
      forall k | k in kept
        ensures k.confidence >= x.confidence
      {
        var i :| 0 <= i < |p| && p[i] == k;
      }
    }
  }

  /** The first detection is always kept, so the output is empty only for empty input. */
  lemma {:induction false} GreedyKeepsFirst(s: seq<Detection>)
    requires |s| > 0
    ensures |GreedyKeep(s)| > 0 && GreedyKeep(s)[0] == s[0]
  {
    if |s| > 1 {
      var p := s[..|s| - 1];
      GreedyKeepsFirst(p);
    } else {
      assert GreedyKeep(s[..0]) == [];
    }
  }

  /** No kept detection suppresses another kept one. */
  lemma {:induction false} GreedyNoOverlap(s: seq<Detection>)
    ensures NoSameLabelOverlap(GreedyKeep(s))
  {
    if |s| > 0 {
      var p, x := s[..|s| - 1], s[|s| - 1];
      GreedyNoOverlap(p);
      var kept := GreedyKeep(p);
      if !AnySuppresses(kept, x) {
        var r := kept + [x];
        forall i, j | 0 <= i < |r| && 0 <= j < |r| && i != j
          ensures !Suppresses(r[i], r[j])
        {
          if j == |kept| {
            assert r[i] in kept;
          } else if i == |kept| {
            assert r[j] in kept;
            IoUSymmetric(r[i].rectOnScreen, r[j].rectOnScreen);
          }
        }
      }
    }
  }

  /**
   * Every input detection is kept, or a kept detection with the same label,
   * IoU above the threshold and at least its confidence suppresses it.
   */
  lemma {:induction false} GreedyAccountsForAll(s: seq<Detection>)
    requires NonIncreasing(s)
    ensures forall i :: 0 <= i < |s| ==> Accounted(GreedyKeep(s), s[i])
  {
    if |s| > 0 {
      var p := s[..|s| - 1];
      GreedyAccountsForAll(p);
      var kept, r := GreedyKeep(p), GreedyKeep(s);
      assert forall k :: k in kept ==> k in r;
      forall i | 0 <= i < |s|
        ensures Accounted(r, s[i])
      {
        if i < |p| {
          assert s[i] == p[i];
          AccountedInLonger(kept, r, s[i]);
        } else {
          GreedyAccountsForLast(s);
        }
      }
    }
  }

  /** The last input detection is kept, or a kept detection at least as confident suppresses it. */
  lemma GreedyAccountsForLast(s: seq<Detection>)
    requires NonIncreasing(s) && |s| > 0
    ensures Accounted(GreedyKeep(s), s[|s| - 1])
  {
    var p, x := s[..|s| - 1], s[|s| - 1];
    var kept := GreedyKeep(p);
    if AnySuppresses(kept, x) {
      GreedyFromInput(p);
      var k :| k in kept && Suppresses(k, x);
      var j :| 0 <= j < |p| && p[j] == k;
      assert s[j] == k;
    }
  }

  /** What the pass keeps from a prefix stays kept once the next detection is taken. */
  lemma AccountedInLonger(kept: seq<Detection>, r: seq<Detection>, d: Detection)
    requires Accounted(kept, d)
    requires forall k :: k in kept ==> k in r
    ensures Accounted(r, d)
  {
  }

  /** Only detections labelled `x.english` can suppress `x`. */
  lemma SuppressorsShareLabel(kept: seq<Detection>, x: Detection)
    ensures AnySuppresses(kept, x) <==> AnySuppresses(WithLabel(kept, x.english), x)
  {
  }

  /**
   * Suppression is strictly per label: keeping the detections of one label
   * after the greedy pass gives what the pass keeps from that label's
   * detections alone, so detections of other labels never suppress them.
   */
  lemma {:induction false} GreedyPerLabel(s: seq<Detection>, name: string)
    ensures WithLabel(GreedyKeep(s), name) == GreedyKeep(WithLabel(s, name))
  {
    if |s| > 0 {
      var p, x := s[..|s| - 1], s[|s| - 1];
      GreedyPerLabel(p, name);
      var kept := GreedyKeep(p);
      var fp := WithLabel(p, name);
      assert WithLabel(s, name) == if x.english == name then fp + [x] else fp;
      if x.english == name {
        assert (fp + [x])[..|fp + [x]| - 1] == fp;
        SuppressorsShareLabel(kept, x);
        if !AnySuppresses(kept, x) {
          assert (kept + [x])[..|kept + [x]| - 1] == kept;
        }
      } else if !AnySuppresses(kept, x) {
        assert (kept + [x])[..|kept + [x]| - 1] == kept;
      }
    }
  }

  /** A list in which nothing suppresses anything passes through the greedy pass unchanged. */
  lemma {:induction false} GreedyFixedPoint(t: seq<Detection>)
    requires NoSameLabelOverlap(t)
    ensures GreedyKeep(t) == t
  {
    if |t| > 0 {
      var p, x := t[..|t| - 1], t[|t| - 1];
      assert NoSameLabelOverlap(p) by {
        forall i, j | 0 <= i < |p| && 0 <= j < |p| && i != j
          ensures !Suppresses(p[i], p[j])
        {
          assert p[i] == t[i] && p[j] == t[j];
        }
      }
      GreedyFixedPoint(p);
      forall k | k in p
        ensures !Suppresses(k, x)
      {
        var i :| 0 <= i < |p| && p[i] == k;
        assert t[i] == k;
      }
      assert t == p + [x];
    }
  }

  /** Running the greedy pass a second time changes nothing. */
  lemma GreedyIdempotent(s: seq<Detection>)
    ensures GreedyKeep(GreedyKeep(s)) == GreedyKeep(s)
  {
    GreedyNoOverlap(s);
    GreedyFixedPoint(GreedyKeep(s));
  }

  /**
   * `reduceOverlaps`: sort by falling confidence, then keep greedily. The
   * result is sorted, drawn from the input, non-empty exactly when the input
   * is, led by a most confident input, free of same-label overlaps, and
   * accounts for every input detection.
   */
  function ReduceOverlaps(dets: seq<Detection>): (r: seq<Detection>)
    ensures NonIncreasing(r)
    ensures multiset(r) <= multiset(dets)
    ensures |r| == 0 <==> |dets| == 0
    ensures |r| > 0 ==> forall i :: 0 <= i < |dets| ==> r[0].confidence >= dets[i].confidence
    ensures NoSameLabelOverlap(r)
    ensures forall i :: 0 <= i < |dets| ==> Accounted(r, dets[i])
  {
    var sorted := SortByConfidence(dets);
    GreedyFromInput(sorted);
    GreedySorted(sorted);
    GreedyNoOverlap(sorted);
    GreedyAccountsForAll(sorted);
    SameElements(sorted, dets);
    AccountedAfterReordering(GreedyKeep(sorted), sorted, dets);
    if |dets| > 0 then
      GreedyKeepsFirst(sorted);
      SortedLeadIsMax(sorted, dets);
      GreedyKeep(sorted)
    else
      GreedyKeep(sorted)
  }

  /** A reordering holds the same detections. */
  lemma SameElements(a: seq<Detection>, b: seq<Detection>)
    requires multiset(a) == multiset(b)
    ensures forall d :: d in a <==> d in b
  {
    forall d
      ensures d in a <==> d in b
    {
      assert d in a <==> d in multiset(a);
      assert d in b <==> d in multiset(b);
    }
  }

  /** The head of a sorted reordering is at least as confident as every detection. */
  lemma SortedLeadIsMax(sorted: seq<Detection>, dets: seq<Detection>)
    requires NonIncreasing(sorted) && |sorted| > 0
    requires forall d :: d in dets ==> d in sorted
    ensures forall i :: 0 <= i < |dets| ==> sorted[0].confidence >= dets[i].confidence
  {
    forall i | 0 <= i < |dets|
      ensures sorted[0].confidence >= dets[i].confidence
    {
      assert dets[i] in dets;
      var j :| 0 <= j < |sorted| && sorted[j] == dets[i];
    }
  }

  /** What accounts for every detection of a list accounts for every detection of its reordering. */
  lemma AccountedAfterReordering(r: seq<Detection>, sorted: seq<Detection>, dets: seq<Detection>)
    requires forall d :: d in dets ==> d in sorted
    requires forall i :: 0 <= i < |sorted| ==> Accounted(r, sorted[i])
    ensures forall i :: 0 <= i < |dets| ==> Accounted(r, dets[i])
  {
    forall i | 0 <= i < |dets|
      ensures Accounted(r, dets[i])
    {
      assert dets[i] in dets;
      var j :| 0 <= j < |sorted| && sorted[j] == dets[i];
    }
  }

  /** Of two detections taken in order, the second is dropped exactly when the first suppresses it. */
  lemma PairOutcome(a: Detection, b: Detection)
    ensures GreedyKeep([a, b]) == if Suppresses(a, b) then [a] else [a, b]
  {
    assert [a, b][..1] == [a];
    assert [a][..0] == [];
  }

  /**
   * Two detections reduce to the more confident one alone when it suppresses
   * the other (same label, IoU above 0.4); otherwise, and always for different
   * labels, both are kept, the more confident first.
   */
  lemma ReducePair(a: Detection, b: Detection)
    requires a.confidence > b.confidence
    ensures ReduceOverlaps([a, b]) == if Suppresses(a, b) then [a] else [a, b]
    ensures ReduceOverlaps([b, a]) == if Suppresses(a, b) then [a] else [a, b]
    ensures a.english != b.english ==> ReduceOverlaps([b, a]) == [a, b]
  {
    SortPair(a, b);
    PairOutcome(a, b);
  }

  /** Two detections of different confidence sort the more confident first, whatever their order. */
  lemma SortPair(a: Detection, b: Detection)
    requires a.confidence > b.confidence
    ensures SortByConfidence([a, b]) == [a, b]
    ensures SortByConfidence([b, a]) == [a, b]
  {
    SortPairInOrder(a, b);
    SortPairSwapped(a, b);
  }

  lemma SortPairInOrder(a: Detection, b: Detection)
    requires a.confidence > b.confidence
    ensures SortByConfidence([a, b]) == [a, b]
  {
    assert [a, b][1..] == [b];
    assert [b][1..] == [];
    assert SortByConfidence([b]) == [b];
    assert Insert(a, [b]) == [a, b];
  }

  lemma SortPairSwapped(a: Detection, b: Detection)
    requires a.confidence > b.confidence
    ensures SortByConfidence([b, a]) == [a, b]
  {
    assert [b, a][1..] == [a];
    assert [a][1..] == [];
    assert SortByConfidence([a]) == [a];
    assert [a][1..] == [];
    assert Insert(b, [a]) == [a] + Insert(b, []);
  }
}

=== FILE: geometry.dfy ===
/**
 * The rectangle arithmetic of `DetectorModel`: `CGRect` with the accessors
 * and intersection of Core Graphics, the conversion of a Vision bounding box
 * to a screen rectangle, intersection-over-union, and the fixed placeholder
 * rectangle shown for classification-only results. `CGFloat` is modelled by
 * exact reals, so nothing here rounds.
 */
module Geometry {
  import opened Wrappers

  function Min(a: real, b: real): real { if a <= b then a else b }
  function Max(a: real, b: real): real { if a <= b then b else a }

  /**
   * A `CGRect` as stored: an origin and a size that may be negative. The
   * accessors read the rect standardised, as Core Graphics does: a negative
   * width extends the rect to the left of `x`, and `Width()` is never negative.
   */
  datatype Rect = Rect(x: real, y: real, w: real, h: real) {
    function MinX(): real { if w < 0.0 then x + w else x }
    function MaxX(): real { if w < 0.0 then x else x + w }
    function MinY(): real { if h < 0.0 then y + h else y }
    function MaxY(): real { if h < 0.0 then y else y + h }

    function Width(): (r: real)
      ensures r >= 0.0
    {
      MaxX() - MinX()
    }

    function Height(): (r: real)
      ensures r >= 0.0
    {
      MaxY() - MinY()
    }

    function Area(): (r: real)
      ensures r >= 0.0
    {
      Width() * Height()
    }

    /** The point lies in the closed rectangle. */
    predicate Contains(px: real, py: real) {
      MinX() <= px <= MaxX() && MinY() <= py <= MaxY()
    }
  }

  /** A `CGSize`: the width and height of the view, in points. */
  datatype Size = Size(width: real, height: real)

  /**
   * `a.intersection(b)`: the rectangle of the points both rectangles contain,
   * or `None` (Core Graphics' null rectangle) when they share no point. Two
   * rectangles that only touch along an edge share a degenerate, zero-area
   * rectangle.
   */
  function Intersection(a: Rect, b: Rect): (r: Option<Rect>)
    ensures r.Some? ==> r.value.w >= 0.0 && r.value.h >= 0.0
  {
    var minX := Max(a.MinX(), b.MinX());
    var maxX := Min(a.MaxX(), b.MaxX());
    var minY := Max(a.MinY(), b.MinY());
    var maxY := Min(a.MaxY(), b.MaxY());
    if maxX < minX || maxY < minY then None
    else Some(Rect(minX, minY, maxX - minX, maxY - minY))
  }

  /** The intersection holds exactly the points common to both rectangles; it is null when there are none. */
  lemma IntersectionIsCommonPoints(a: Rect, b: Rect)
    ensures Intersection(a, b).None? ==> forall px, py :: !(a.Contains(px, py) && b.Contains(px, py))
    ensures Intersection(a, b).Some? ==> forall px, py ::
      Intersection(a, b).value.Contains(px, py) <==> a.Contains(px, py) && b.Contains(px, py)
  {
  }

  /** The intersection lies inside both rectangles, so its sides are no longer than theirs. */
  lemma IntersectionWithin(a: Rect, b: Rect)
    requires Intersection(a, b).Some?
    ensures var i := Intersection(a, b).value;
      i.Width() <= a.Width() && i.Height() <= a.Height() &&
      i.Width() <= b.Width() && i.Height() <= b.Height()
  {
  }

  lemma MulMono(a: real, b: real, c: real, d: real)
    requires 0.0 <= a <= c && 0.0 <= b <= d
    ensures a * b <= c * d
  {
    assert a * b <= c * b;
    assert c * b <= c * d;
  }

  /** A rectangle no wider and no taller than another has no larger area. */
  lemma AreaMono(i: Rect, a: Rect)
    requires i.Width() <= a.Width() && i.Height() <= a.Height()
    ensures i.Area() <= a.Area()
  {
    MulMono(i.Width(), i.Height(), a.Width(), a.Height());
  }

  /** The intersection's area is at most the area of either rectangle. */
  lemma IntersectionAreaBound(a: Rect, b: Rect)
    requires Intersection(a, b).Some?
    ensures Intersection(a, b).value.Area() <= a.Area()
    ensures Intersection(a, b).value.Area() <= b.Area()
  {
    var i := Intersection(a, b).value;
    IntersectionWithin(a, b);
    AreaMono(i, a);
    AreaMono(i, b);
  }

  lemma DivCancel(a: real, d: real)
    requires d > 0.0
    ensures (a * d) / d == a
  {
  }

  lemma DivAtMostOne(n: real, d: real)
    requires 0.0 <= n <= d && d > 0.0
    ensures 0.0 <= n / d <= 1.0
  {
    assert n / d * d == n;
  }

  /**
   * `iou(a, b)`: area of the intersection over area of the union; 0 when the
   * rectangles share no point, and 0 when the union has no positive area.
   */
  function IoU(a: Rect, b: Rect): (r: real)
    ensures 0.0 <= r <= 1.0
    ensures Intersection(a, b).None? ==> r == 0.0
    ensures r > 0.0 ==> Intersection(a, b).Some? && Intersection(a, b).value.Area() > 0.0
  {
    match Intersection(a, b)
    case None => 0.0
    case Some(inter) =>
      var interArea := inter.Area();
      var unionArea := a.Area() + b.Area() - interArea;
      IntersectionAreaBound(a, b);
      if unionArea > 0.0 then
        DivAtMostOne(interArea, unionArea);
        interArea / unionArea
      else 0.0
  }

  /** Overlap does not depend on the order of the two rectangles. */
  lemma IoUSymmetric(a: Rect, b: Rect)
    ensures IoU(a, b) == IoU(b, a)
  {
    assert Intersection(a, b) == Intersection(b, a);
  }

  /** A rectangle of positive area overlaps itself completely. */
  lemma IoUSelf(a: Rect)
    requires a.Area() > 0.0
    ensures IoU(a, a) == 1.0
  {
    var i := Intersection(a, a).value;
    assert i.Width() == a.Width() && i.Height() == a.Height();
  }

  /** A rectangle nested in another overlaps it by the ratio of their areas. */
  lemma IoUNested(outer: Rect, inner: Rect)
    requires outer.MinX() <= inner.MinX() && inner.MaxX() <= outer.MaxX()
    requires outer.MinY() <= inner.MinY() && inner.MaxY() <= outer.MaxY()
    requires outer.Area() > 0.0
    ensures IoU(outer, inner) == inner.Area() / outer.Area()
  {
    var i := Intersection(outer, inner).value;
    assert i.Width() == inner.Width() && i.Height() == inner.Height();
  }

  /** A 10 by 6 box in the corner of a 10 by 10 box overlaps it with IoU 0.6. */
  lemma IoUExample(outer: Rect, inner: Rect)
    requires outer == Rect(0.0, 0.0, 10.0, 10.0) && inner == Rect(0.0, 0.0, 10.0, 6.0)
    ensures IoU(outer, inner) == 0.6
  {
    assert outer.Area() == 100.0;
    assert inner.Area() == 60.0;
    IoUNested(outer, inner);
  }

  /**
   * `visionRectToViewRect`: a Vision bounding box (normalised, origin at the
   * bottom left) to a view rectangle (points, origin at the top left). The
   * vertical axis flips: the box's bottom edge becomes the rectangle's
   * bottom edge at `(1 - minY) * H`. Nothing is clamped to the view.
   */
  function VisionRectToViewRect(box: Rect, viewSize: Size): (r: Rect)
    ensures r.w == box.Width() * viewSize.width
    ensures r.h == box.Height() * viewSize.height
    ensures viewSize.width >= 0.0 ==>
      r.MinX() == box.MinX() * viewSize.width && r.MaxX() == box.MaxX() * viewSize.width
    ensures viewSize.height >= 0.0 ==>
      r.MinY() == (1.0 - box.MaxY()) * viewSize.height &&
      r.MaxY() == (1.0 - box.MinY()) * viewSize.height
  {
    var w := box.Width() * viewSize.width;
    var h := box.Height() * viewSize.height;
    var x := box.MinX() * viewSize.width;
    var y := (1.0 - box.MinY() - box.Height()) * viewSize.height;
    Rect(x, y, w, h)
  }

  /** The converse map, from a view rectangle back to a normalised Vision box. */
  function ViewRectToVisionRect(r: Rect, viewSize: Size): (box: Rect)
    requires viewSize.width > 0.0 && viewSize.height > 0.0
    ensures box.w >= 0.0 && box.h >= 0.0
  {
    Rect(r.MinX() / viewSize.width, 1.0 - r.MaxY() / viewSize.height,
         r.Width() / viewSize.width, r.Height() / viewSize.height)
  }

  /** Converting a box to the view and back gives the box (standardised) again. */
  lemma VisionRoundTrip(box: Rect, viewSize: Size)
    requires viewSize.width > 0.0 && viewSize.height > 0.0
    requires box.w >= 0.0 && box.h >= 0.0
    ensures ViewRectToVisionRect(VisionRectToViewRect(box, viewSize), viewSize) == box
  {
    var W, H := viewSize.width, viewSize.height;
    var r := VisionRectToViewRect(box, viewSize);
    assert r.MinX() / W == box.x;
    assert r.Width() / W == box.w;
    assert r.Height() / H == box.h;
    assert r.MaxY() == (1.0 - box.y) * H;
    DivCancel(1.0 - box.y, H);
  }

  /** Converting a view rectangle to a box and back gives the rectangle (standardised) again. */
  lemma ViewRoundTrip(r: Rect, viewSize: Size)
    requires viewSize.width > 0.0 && viewSize.height > 0.0
    requires r.w >= 0.0 && r.h >= 0.0
    ensures VisionRectToViewRect(ViewRectToVisionRect(r, viewSize), viewSize) == r
  {
    var W, H := viewSize.width, viewSize.height;
    var box := ViewRectToVisionRect(r, viewSize);
    assert box.w * W == r.w;
    assert box.h * H == r.h;
    assert box.x * W == r.x;
    assert (1.0 - box.y - box.h) * H == r.y;
  }

  /** The view rectangle lies inside the view exactly when the box lies inside the unit square. */
  lemma InsideViewIff(box: Rect, viewSize: Size)
    requires viewSize.width > 0.0 && viewSize.height > 0.0
    ensures var r := VisionRectToViewRect(box, viewSize);
      (0.0 <= r.MinX() && r.MaxX() <= viewSize.width && 0.0 <= r.MinY() && r.MaxY() <= viewSize.height)
      <==>
      (0.0 <= box.MinX() && box.MaxX() <= 1.0 && 0.0 <= box.MinY() && box.MaxY() <= 1.0)
    ensures var r := VisionRectToViewRect(box, viewSize);
      r.MaxY() <= viewSize.height <==> box.MinY() >= 0.0
  {
  }

  /**
   * The rectangle shown for a classification-only result: 40% of the view's
   * width and 30% of its height, centred in the view.
   */
  function PlaceholderRect(viewSize: Size): (r: Rect)
    ensures r.w == 0.4 * viewSize.width && r.h == 0.3 * viewSize.height
    ensures r.x + r.w / 2.0 == viewSize.width / 2.0
    ensures r.y + r.h / 2.0 == viewSize.height / 2.0
    ensures viewSize.width >= 0.0 && viewSize.height >= 0.0 ==>
      0.0 <= r.MinX() && r.MaxX() <= viewSize.width && 0.0 <= r.MinY() && r.MaxY() <= viewSize.height
  {
    Rect(viewSize.width * 0.3, viewSize.height * 0.35, viewSize.width * 0.4, viewSize.height * 0.3)
  }
}

=== FILE: label_translator.dfy ===
/**
 * `LabelTranslator.japanese(for:)`: English detector class names to Japanese.
 * The input is lower-cased and looked up in a fixed table of COCO class
 * names; a name the table does not know comes back exactly as given.
 */
module LabelTranslator {
  import opened Wrappers
  import opened Text

  /*
   * The `dict` literal, entry by entry in source order (English key, Japanese
   * value). It is written as four runs of twenty entries so that the facts
   * about the whole table are proved a run at a time.
   */
  const Part1: seq<(string, string)> := [
    ("person", "人"), ("bicycle", "自転車"), ("car", "車"), ("motorcycle", "オートバイ"),
    ("airplane", "飛行機"), ("bus", "バス"), ("train", "電車"), ("truck", "トラック"),
    ("boat", "ボート"), ("traffic light", "信号"), ("fire hydrant", "消火栓"), ("stop sign", "一時停止標識"),
    ("parking meter", "パーキングメーター"), ("bench", "ベンチ"), ("bird", "鳥"), ("cat", "猫"),
    ("dog", "犬"), ("horse", "馬"), ("sheep", "羊"), ("cow", "牛")
  ]

  const Part2: seq<(string, string)> := [
    ("elephant", "象"), ("bear", "熊"), ("zebra", "シマウマ"), ("giraffe", "キリン"),
    ("backpack", "リュック"), ("umbrella", "傘"), ("handbag", "ハンドバッグ"), ("tie", "ネクタイ"),
    ("suitcase", "スーツケース"), ("frisbee", "フリスビー"), ("skis", "スキー板"), ("snowboard", "スノーボード"),
    ("sports ball", "ボール"), ("kite", "凧"), ("baseball bat", "バット"), ("baseball glove", "グローブ"),
    ("skateboard", "スケートボード"), ("surfboard", "サーフボード"), ("tennis racket", "テニスラケット"), ("bottle", "ボトル")
  ]

  const Part3: seq<(string, string)> := [
    ("wine glass", "ワイングラス"), ("cup", "コップ"), ("fork", "フォーク"), ("knife", "ナイフ"),
    ("spoon", "スプーン"), ("bowl", "ボウル"), ("banana", "バナナ"), ("apple", "りんご"),
    ("sandwich", "サンドイッチ"), ("orange", "オレンジ"), ("broccoli", "ブロッコリー"), ("carrot", "ニンジン"),
    ("hot dog", "ホットドッグ"), ("pizza", "ピザ"), ("donut", "ドーナツ"), ("cake", "ケーキ"),
    ("chair", "椅子"), ("couch", "ソファ"), ("potted plant", "観葉植物"), ("bed", "ベッド")
  ]

  const Part4: seq<(string, string)> := [
    ("dining table", "ダイニングテーブル"), ("toilet", "トイレ"), ("tv", "テレビ"), ("laptop", "ノートPC"),
    ("mouse", "マウス"), ("remote", "リモコン"), ("keyboard", "キーボード"), ("cell phone", "スマホ"),
    ("microwave", "電子レンジ"), ("oven", "オーブン"), ("toaster", "トースター"), ("sink", "流し台"),
    ("refrigerator", "冷蔵庫"), ("book", "本"), ("clock", "時計"), ("vase", "花瓶"),
    ("scissors", "はさみ"), ("teddy bear", "テディベア"), ("hair drier", "ドライヤー"), ("toothbrush", "歯ブラシ")
  ]

  const Table: seq<(string, string)> := Part1 + Part2 + Part3 + Part4

  /** Dictionary subscript `dict[key]` on a table given as its list of entries. */
  function Lookup(table: seq<(string, string)>, key: string): (r: Option<string>)
    ensures r.None? <==> AbsentFrom(table, key)
    ensures r.Some? ==> exists i :: 0 <= i < |table| && table[i] == (key, r.value)
  {
    if |table| == 0 then None
    else if table[0].0 == key then Some(table[0].1)
    else
      var r := Lookup(table[1..], key);
      assert r.Some? ==> exists i :: 0 <= i < |table[1..]| && table[1..][i] == (key, r.value);
      r
  }

  predicate AbsentFrom(table: seq<(string, string)>, key: string) {
    forall i :: 0 <= i < |table| ==> table[i].0 != key
  }

  /** No key occurs twice (a Swift dictionary literal with a repeated key traps at run time). */
  predicate KeysDistinct(table: seq<(string, string)>) {
    forall i, j :: 0 <= i < j < |table| ==> table[i].0 != table[j].0
  }

  /** No key of `a` is a key of `b`. */
  predicate KeysDisjoint(a: seq<(string, string)>, b: seq<(string, string)>) {
    forall i, j :: 0 <= i < |a| && 0 <= j < |b| ==> a[i].0 != b[j].0
  }

  /** A key made only of the letters `a`..`z` and spaces. */
  predicate PlainKey(key: string) {
    forall i :: 0 <= i < |key| ==> 'a' <= key[i] <= 'z' || key[i] == ' '
  }

  predicate KeysPlain(table: seq<(string, string)>) {
    forall i :: 0 <= i < |table| ==> PlainKey(table[i].0)
  }

  /** `japanese(for:)`: the table value for the lower-cased input, else the input unchanged. */
  function Japanese(english: string): (r: string)
    ensures r == english || exists i :: 0 <= i < |Table| && Table[i] == (Lower(english), r)
  {
    match Lookup(Table, Lower(english))
    case Some(ja) => ja
    case None => english
  }

  /** With distinct keys, a lookup of any key finds that key's own entry. */
  lemma {:induction false} LookupFindsEntry(table: seq<(string, string)>, i: int)
    requires KeysDistinct(table)
    requires 0 <= i < |table|
    ensures Lookup(table, table[i].0) == Some(table[i].1)
  {
    if i > 0 {
      assert table[0].0 != table[i].0;
      assert table[1..][i - 1] == table[i];
      LookupFindsEntry(table[1..], i - 1);
    }
  }

  lemma {:induction false} ConcatKeysDistinct(a: seq<(string, string)>, b: seq<(string, string)>)
    requires KeysDistinct(a) && KeysDistinct(b) && KeysDisjoint(a, b)
    ensures KeysDistinct(a + b)
  {
    forall i, j | 0 <= i < j < |a + b|
      ensures (a + b)[i].0 != (a + b)[j].0
    {
      if j < |a| {
        assert (a + b)[i] == a[i] && (a + b)[j] == a[j];
      } else if i < |a| {
        assert (a + b)[i] == a[i] && (a + b)[j] == b[j - |a|];
      } else {
        assert (a + b)[i] == b[i - |a|] && (a + b)[j] == b[j - |a|];
      }
    }
  }

  lemma {:induction false} ConcatKeysDisjoint(a: seq<(string, string)>, b: seq<(string, string)>, c: seq<(string, string)>)
    requires KeysDisjoint(a, c) && KeysDisjoint(b, c)
    ensures KeysDisjoint(a + b, c)
  {
    forall i, j | 0 <= i < |a + b| && 0 <= j < |c|
      ensures (a + b)[i].0 != c[j].0
    {
      if i < |a| {
        assert (a + b)[i] == a[i];
      } else {
        assert (a + b)[i] == b[i - |a|];
      }
    }
  }

  lemma {:induction false} ConcatKeysPlain(a: seq<(string, string)>, b: seq<(string, string)>)
    requires KeysPlain(a) && KeysPlain(b)
    ensures KeysPlain(a + b)
  {
    forall i | 0 <= i < |a + b|
      ensures IsLowercase((a + b)[i].0)
    {
      if i < |a| {
        assert (a + b)[i] == a[i];
      } else {
        assert (a + b)[i] == b[i - |a|];
      }
    }
  }

  lemma {:induction false} ConcatAbsent(a: seq<(string, string)>, b: seq<(string, string)>, key: string)
    requires AbsentFrom(a, key) && AbsentFrom(b, key)
    ensures AbsentFrom(a + b, key)
  {
    forall i | 0 <= i < |a + b|
      ensures (a + b)[i].0 != key
    {
      if i < |a| {
        assert (a + b)[i] == a[i];
      } else {
        assert (a + b)[i] == b[i - |a|];
      }
    }
  }

  /* Facts about the four runs, proved run by run (and pair of runs by pair of runs). */

  lemma Part1Plain() ensures forall i :: 0 <= i < |Part1| ==> PlainKey(Part1[i].0) {}
  lemma Part1Distinct() ensures forall i, j :: 0 <= i < j < |Part1| ==> Part1[i].0 != Part1[j].0 {}
  lemma Part2Plain() ensures forall i :: 0 <= i < |Part2| ==> PlainKey(Part2[i].0) {}
  lemma Part2Distinct() ensures forall i, j :: 0 <= i < j < |Part2| ==> Part2[i].0 != Part2[j].0 {}
  lemma Part3Plain() ensures forall i :: 0 <= i < |Part3| ==> PlainKey(Part3[i].0) {}
  lemma Part3Distinct() ensures forall i, j :: 0 <= i < j < |Part3| ==> Part3[i].0 != Part3[j].0 {}
  lemma Part4Plain() ensures forall i :: 0 <= i < |Part4| ==> PlainKey(Part4[i].0) {}
  lemma Part4Distinct() ensures forall i, j :: 0 <= i < j < |Part4| ==> Part4[i].0 != Part4[j].0 {}
  lemma Parts12Disjoint()
    ensures forall i, j :: 0 <= i < |Part1| && 0 <= j < |Part2| ==> Part1[i].0 != Part2[j].0
  {}
  lemma Parts13Disjoint()
    ensures forall i, j :: 0 <= i < |Part1| && 0 <= j < |Part3| ==> Part1[i].0 != Part3[j].0
  {}
  lemma Parts23Disjoint()
    ensures forall i, j :: 0 <= i < |Part2| && 0 <= j < |Part3| ==> Part2[i].0 != Part3[j].0
  {}
  lemma Parts14Disjoint()
    ensures forall i, j :: 0 <= i < |Part1| && 0 <= j < |Part4| ==> Part1[i].0 != Part4[j].0
  {}
  lemma Parts24Disjoint()
    ensures forall i, j :: 0 <= i < |Part2| && 0 <= j < |Part4| ==> Part2[i].0 != Part4[j].0
  {}
  lemma Parts34Disjoint()
    ensures forall i, j :: 0 <= i < |Part3| && 0 <= j < |Part4| ==> Part3[i].0 != Part4[j].0
  {}

  /** Every key of the table is lower-case letters and spaces, and no key is repeated. */
  lemma TableWellFormed()
    ensures KeysPlain(Table)
    ensures KeysDistinct(Table)
  {
    Part1Plain();
    Part1Distinct();
    Part2Plain();
    Part2Distinct();
    Part3Plain();
    Part3Distinct();
    Part4Plain();
    Part4Distinct();
    ConcatKeysPlain(Part1, Part2);
    ConcatKeysPlain(Part1 + Part2, Part3);
    ConcatKeysPlain(Part1 + Part2 + Part3, Part4);
    Parts12Disjoint();
    Parts13Disjoint();
    Parts23Disjoint();
    Parts14Disjoint();
    Parts24Disjoint();
    Parts34Disjoint();
    ConcatKeysDistinct(Part1, Part2);
    ConcatKeysDisjoint(Part1, Part2, Part3);
    ConcatKeysDistinct(Part1 + Part2, Part3);
    ConcatKeysDisjoint(Part1, Part2, Part4);
    ConcatKeysDisjoint(Part1 + Part2, Part3, Part4);
    ConcatKeysDistinct(Part1 + Part2 + Part3, Part4);
  }

  /** A key of the table, in any casing, translates to that key's value. */
  lemma TranslatesKnownLabel(english: string, i: int)
    requires 0 <= i < |Table|
    requires Lower(english) == Table[i].0
    ensures Japanese(english) == Table[i].1
  {
    TableWellFormed();
    LookupFindsEntry(Table, i);
  }

  /** A label whose lower-case form is not a key comes back unchanged, casing included. */
  lemma PassesUnknownLabel(english: string)
    requires AbsentFrom(Table, Lower(english))
    ensures Japanese(english) == english
  {
  }

  /** Every entry of the table is reachable: each key translates to its own value. */
  lemma EveryEntryReachable()
    ensures forall i :: 0 <= i < |Table| ==> IsLowercase(Table[i].0)
    ensures forall i :: 0 <= i < |Table| ==> Japanese(Table[i].0) == Table[i].1
  {
    TableWellFormed();
    forall i | 0 <= i < |Table|
      ensures IsLowercase(Table[i].0) && Japanese(Table[i].0) == Table[i].1
    {
      assert PlainKey(Table[i].0);
      LowerFixedPoint(Table[i].0);
      TranslatesKnownLabel(Table[i].0, i);
    }
  }

  /**
   * Lower-casing is the only normalisation: a label holding an underscore or a
   * hyphen is never a key, so it comes back unchanged.
   */
  lemma SeparatorsPassThrough(english: string, i: int)
    requires 0 <= i < |english|
    requires english[i] == '_' || english[i] == '-'
    ensures Japanese(english) == english
  {
    TableWellFormed();
    assert Lower(english)[i] == english[i];
    forall j | 0 <= j < |Table|
      ensures Table[j].0 != Lower(english)
    {
      assert PlainKey(Table[j].0);
    }
  }

  /** Two labels equal up to case that hit the table translate alike. */
  lemma CaseInsensitiveHit(a: string, b: string)
    requires Lower(a) == Lower(b)
    requires !AbsentFrom(Table, Lower(a))
    ensures Japanese(a) == Japanese(b)
  {
  }

  /** A key absent from each run is absent from the table. */
  lemma AbsentFromTable(key: string)
    requires AbsentFrom(Part1, key) && AbsentFrom(Part2, key)
    requires AbsentFrom(Part3, key) && AbsentFrom(Part4, key)
    ensures AbsentFrom(Table, key)
  {
    ConcatAbsent(Part1, Part2, key);
    ConcatAbsent(Part1 + Part2, Part3, key);
    ConcatAbsent(Part1 + Part2 + Part3, Part4, key);
  }

  /** Lookup ignores the input's casing: "Dog" and "DOG" both give 犬. */
  lemma DogInAnyCase()
    ensures Japanese("Dog") == "犬"
    ensures Japanese("DOG") == "犬"
  {
    assert Lower("Dog") == "dog";
    assert Lower("DOG") == "dog";
    assert Table[16] == ("dog", "犬");
    TranslatesKnownLabel("Dog", 16);
    TranslatesKnownLabel("DOG", 16);
  }

  /** "Cell Phone" differs from a key only in casing, so it translates to スマホ. */
  lemma CellPhoneInTitleCase()
    ensures Japanese("Cell Phone") == "スマホ"
  {
    LowerCellPhone();
    CellPhoneEntry();
    TranslatesKnownLabel("Cell Phone", 67);
  }

  lemma LowerCellPhone()
    ensures Lower("Cell Phone") == "cell phone"
  {
  }

  lemma CellPhoneEntry()
    ensures Table[67] == ("cell phone", "スマホ")
  {
    assert Table[67] == Part4[7];
  }

  /** "cell_phone" keeps its underscore, misses the table and comes back as it is. */
  lemma UnderscoreIsKept()
    ensures Japanese("cell_phone") == "cell_phone"
  {
    SeparatorsPassThrough("cell_phone", 4);
  }

  /** The empty label is not a key, so it translates to the empty string. */
  lemma EmptyLabel()
    ensures Japanese("") == ""
  {
    assert AbsentFrom(Part1, "") && AbsentFrom(Part2, "");
    assert AbsentFrom(Part3, "") && AbsentFrom(Part4, "");
    AbsentFromTable("");
  }
}

=== FILE: pipeline.dfy ===
/**
 * The frame pipeline of `DetectorModel.process(frame:viewSize:)`: a throttle
 * gate (`isBusy`, `lastFrameTime`) that admits a frame only when no request
 * is outstanding and 0.12 s have passed since the last admitted frame, and
 * the completion paths of the Vision request, every one of which clears
 * `isBusy` and publishes a new detection list.
 *
 * Vision itself is outside the model: a request's end is an `Outcome`, and
 * the pipeline is a sequential machine over frame and completion events
 * (the queue hops of the source are not modelled).
 */
module Pipeline {
  import opened Wrappers
  import opened Geometry
  import opened LabelTranslator
  import opened Detections

  /** Minimum time between two admitted frames, in seconds (about 8 frames a second). */
  const MinFrameInterval: real := 0.12

  /** The throttle state: a request is outstanding, and the time of the last admitted frame. */
  datatype Gate = Gate(isBusy: bool, lastFrameTime: real)

  /** The gate as `DetectorModel` starts: idle, last frame at time 0. */
  const InitialGate: Gate := Gate(false, 0.0)

  /** The gate is idle and the frame comes at least the minimum interval after the last admitted one. */
  predicate Admits(g: Gate, t: real) {
    !g.isBusy && t - g.lastFrameTime >= MinFrameInterval
  }

  /** The throttle at the top of `process`: drop the frame, or record it and go busy. */
  function Admit(g: Gate, t: real): (g': Gate)
    ensures Admits(g, t) ==> g'.isBusy && g'.lastFrameTime == t
    ensures !Admits(g, t) ==> g' == g
  {
    if g.isBusy || t - g.lastFrameTime < MinFrameInterval then g
    else Gate(true, t)
  }

  /** Every completion path's `isBusy = false`: the gate goes idle and keeps `lastFrameTime`. */
  function Release(g: Gate): (g': Gate)
    ensures !g'.isBusy && g'.lastFrameTime == g.lastFrameTime
  {
    g.(isBusy := false)
  }

  /** What the gate sees: a frame at a time, or the end of the outstanding request. */
  datatype GateEvent = Frame(t: real) | Done

  /** The two-state machine: idle to busy on an admitted frame, busy to idle on any completion. */
  function GateStep(g: Gate, e: GateEvent): (g': Gate)
    ensures e.Done? ==> !g'.isBusy && g'.lastFrameTime == g.lastFrameTime
    ensures e.Frame? ==> (g'.isBusy <==> g.isBusy || Admits(g, e.t))
    ensures e.Frame? ==> g'.lastFrameTime == if Admits(g, e.t) then e.t else g.lastFrameTime
  {
    match e
    case Frame(t) => Admit(g, t)
    case Done => Release(g)
  }

  /** The gate after a sequence of events. */
  function GateRun(g: Gate, events: seq<GateEvent>): Gate
    decreases |events|
  {
    if |events| == 0 then g else GateRun(GateStep(g, events[0]), events[1..])
  }

  /** The times of the frames admitted along a sequence of events. */
  function Admitted(g: Gate, events: seq<GateEvent>): seq<real>
    decreases |events|
  {
    if |events| == 0 then []
    else
      var e := events[0];
      (if e.Frame? && Admits(g, e.t) then [e.t] else []) + Admitted(GateStep(g, e), events[1..])
  }

  /** The number of outstanding requests that finish along a sequence of events. */
  function Finished(g: Gate, events: seq<GateEvent>): nat
    decreases |events|
  {
    if |events| == 0 then 0
    else
      var e := events[0];
      (if e.Done? && g.isBusy then 1 else 0) + Finished(GateStep(g, e), events[1..])
  }

  /** Which request `process` builds: the bundled Core ML detector, or Vision's built-in classifier. */
  datatype Backend = CoreMLDetector | BuiltInClassifier

  /** A class name with its confidence: a classification, or an object's top label. */
  datatype ClassLabel = ClassLabel(identifier: string, confidence: real)

  /** A recognised object: its candidate labels, best first, and its normalised Vision box. */
  datatype ObjectObservation = ObjectObservation(labels: seq<ClassLabel>, boundingBox: Rect)

  /** How a Vision request ends. */
  datatype Outcome =
    | RequestError                            // the completion handler receives an error
    | Objects(objects: seq<ObjectObservation>) // results are recognised objects
    | Classes(classes: seq<ClassLabel>)       // results are classifications, best first
    | Unrecognised                            // results of another type, or none
    | PerformThrew                            // `perform` throws before any completion

  /** A detection for a label placed at `rect`, with its Japanese translation. */
  function Labelled(top: ClassLabel, rect: Rect): (d: Detection)
    ensures d.english == top.identifier && d.confidence == top.confidence
    ensures d.japanese == Japanese(top.identifier) && d.rectOnScreen == rect
  {
    Detection(top.identifier, Japanese(top.identifier), rect, top.confidence)
  }

  /** The detection for `o`'s top label on `o`'s box converted to the view. */
  function DetectionFor(o: ObjectObservation, viewSize: Size): (d: Detection)
    requires |o.labels| > 0
    ensures d.english == o.labels[0].identifier && d.confidence == o.labels[0].confidence
    ensures d.japanese == Japanese(o.labels[0].identifier)
    ensures d.rectOnScreen == VisionRectToViewRect(o.boundingBox, viewSize)
  {
    Labelled(o.labels[0], VisionRectToViewRect(o.boundingBox, viewSize))
  }

  /** The detections of one object: its detection when it has a label, none otherwise. */
  function OneObject(o: ObjectObservation, viewSize: Size): seq<Detection> {
    if |o.labels| > 0 then [DetectionFor(o, viewSize)] else []
  }

  /**
   * The `compactMap` over recognised objects: each object with a label gives
   * the detection for its top label on its converted box, in order; an object
   * without labels gives none.
   */
  function ObjectDetections(objects: seq<ObjectObservation>, viewSize: Size): (r: seq<Detection>)
    ensures |r| <= |objects|
    ensures (forall i :: 0 <= i < |objects| ==> |objects[i].labels| > 0) ==> |r| == |objects|
    ensures forall d :: d in r ==> exists o :: o in objects && |o.labels| > 0 && d == DetectionFor(o, viewSize)
  {
    if |objects| == 0 then []
    else
      var o := objects[0];
      var rest := ObjectDetections(objects[1..], viewSize);
      assert forall p :: p in objects[1..] ==> p in objects;
      OneObject(o, viewSize) + rest
  }

  /** One object alone gives exactly its own detections. */
  lemma ObjectDetectionsSingle(o: ObjectObservation, viewSize: Size)
    ensures ObjectDetections([o], viewSize) == OneObject(o, viewSize)
  {
    assert [o][1..] == [];
  }

  /** The first object's detections come first, then those of the rest. */
  lemma ObjectDetectionsCons(objects: seq<ObjectObservation>, viewSize: Size)
    requires |objects| > 0
    ensures ObjectDetections(objects, viewSize) == OneObject(objects[0], viewSize) + ObjectDetections(objects[1..], viewSize)
  {
  }

  /**
   * The map works object by object: the detections of two runs of objects are
   * those of the first run followed by those of the second. With
   * `ObjectDetectionsSingle` this fixes the list exactly, order and
   * multiplicity included.
   */
  lemma {:induction false} ObjectDetectionsAppend(a: seq<ObjectObservation>, b: seq<ObjectObservation>, viewSize: Size)
    ensures ObjectDetections(a + b, viewSize) == ObjectDetections(a, viewSize) + ObjectDetections(b, viewSize)
  {
    if |a| == 0 {
      assert a + b == b;
    } else {
      var h := OneObject(a[0], viewSize);
      calc {
        ObjectDetections(a + b, viewSize);
      == { assert (a + b)[0] == a[0] && (a + b)[1..] == a[1..] + b; ObjectDetectionsCons(a + b, viewSize); }
        h + ObjectDetections(a[1..] + b, viewSize);
      == { ObjectDetectionsAppend(a[1..], b, viewSize); }
        h + (ObjectDetections(a[1..], viewSize) + ObjectDetections(b, viewSize));
      == { SeqAssoc(h, ObjectDetections(a[1..], viewSize), ObjectDetections(b, viewSize)); }
        (h + ObjectDetections(a[1..], viewSize)) + ObjectDetections(b, viewSize);
      == { ObjectDetectionsCons(a, viewSize); }
        ObjectDetections(a, viewSize) + ObjectDetections(b, viewSize);
      }
    }
  }

  /** Concatenation of detection lists is associative. */
  lemma SeqAssoc(x: seq<Detection>, y: seq<Detection>, z: seq<Detection>)
    ensures x + (y + z) == (x + y) + z
  {
  }

  /** No labelled object is lost: each one's detection is among those produced. */
  lemma {:induction false} NoObjectLost(objects: seq<ObjectObservation>, viewSize: Size)
    ensures forall i :: 0 <= i < |objects| && |objects[i].labels| > 0 ==>
      DetectionFor(objects[i], viewSize) in ObjectDetections(objects, viewSize)
  {
    if |objects| > 0 {
      var rest := objects[1..];
      NoObjectLost(rest, viewSize);
      forall i | 1 <= i < |objects| && |objects[i].labels| > 0
        ensures DetectionFor(objects[i], viewSize) in ObjectDetections(objects, viewSize)
      {
        assert objects[i] == rest[i - 1];
      }
    }
  }

  /**
   * The list a finished request publishes. A request error, a throwing
   * `perform`, results of another type and an empty classification list all
   * publish nothing; classifications publish their top class on the centred
   * placeholder rectangle; recognised objects (detector only) publish the
   * overlap-reduced detections.
   */
  function Publish(backend: Backend, outcome: Outcome, viewSize: Size): (r: seq<Detection>)
    ensures outcome.RequestError? || outcome.PerformThrew? || outcome.Unrecognised? ==> r == []
    ensures outcome.Classes? && |outcome.classes| > 0 ==>
      r == [Labelled(outcome.classes[0], PlaceholderRect(viewSize))]
    ensures outcome.Classes? && |outcome.classes| == 0 ==> r == []
    ensures outcome.Objects? && backend.BuiltInClassifier? ==> r == []
    ensures outcome.Objects? && backend.CoreMLDetector? ==>
      var dets := ObjectDetections(outcome.objects, viewSize);
      && NonIncreasing(r)
      && multiset(r) <= multiset(dets)
      && (|r| == 0 <==> |dets| == 0)
      && NoSameLabelOverlap(r)
      && forall i :: 0 <= i < |dets| ==> Accounted(r, dets[i])
  {
    match outcome
    case RequestError => []
    case PerformThrew => []
    case Unrecognised => []
    case Classes(classes) =>
      if |classes| == 0 then [] else [Labelled(classes[0], PlaceholderRect(viewSize))]
    case Objects(objects) =>
      if backend.BuiltInClassifier? then []
      else ReduceOverlaps(ObjectDetections(objects, viewSize))
  }

  /**
   * From the detector, every labelled object shows up in what is published:
   * its detection is kept, or a kept detection with its label, IoU above 0.4
   * and at least its confidence suppresses it.
   */
  lemma EveryObjectAccounted(objects: seq<ObjectObservation>, viewSize: Size)
    ensures forall i :: 0 <= i < |objects| && |objects[i].labels| > 0 ==>
      Accounted(Publish(CoreMLDetector, Objects(objects), viewSize), DetectionFor(objects[i], viewSize))
  {
    var dets := ObjectDetections(objects, viewSize);
    var r := Publish(CoreMLDetector, Objects(objects), viewSize);
    NoObjectLost(objects, viewSize);
    forall i | 0 <= i < |objects| && |objects[i].labels| > 0
      ensures Accounted(r, DetectionFor(objects[i], viewSize))
    {
      var j :| 0 <= j < |dets| && dets[j] == DetectionFor(objects[i], viewSize);
    }
  }

  /** Each time is at least the minimum interval after the one before it, the first after `start`. */
  predicate Spaced(start: real, ts: seq<real>) {
    && (|ts| > 0 ==> ts[0] - start >= MinFrameInterval)
    && forall i :: 0 < i < |ts| ==> ts[i] - ts[i - 1] >= MinFrameInterval
  }

  lemma SpacedCons(start: real, t: real, rest: seq<real>)
    requires t - start >= MinFrameInterval
    requires Spaced(t, rest)
    ensures Spaced(start, [t] + rest)
  {
    var ts := [t] + rest;
    forall i | 0 < i < |ts|
      ensures ts[i] - ts[i - 1] >= MinFrameInterval
    {
      assert ts[i] == rest[i - 1];
      assert ts[i - 1] == if i == 1 then t else rest[i - 2];
    }
  }

  /** Admitted frames are at least 0.12 s apart, the first 0.12 s after the starting `lastFrameTime`. */
  lemma {:induction false} AdmittedFramesSpaced(g: Gate, events: seq<GateEvent>)
    ensures Spaced(g.lastFrameTime, Admitted(g, events))
    decreases |events|
  {
    if |events| > 0 {
      var e := events[0];
      var g1 := GateStep(g, e);
      AdmittedFramesSpaced(g1, events[1..]);
      if e.Frame? && Admits(g, e.t) {
        SpacedCons(g.lastFrameTime, e.t, Admitted(g1, events[1..]));
      }
    }
  }

  /** `lastFrameTime` ends at the last admitted frame, or where it started when none is admitted. */
  lemma {:induction false} LastFrameTimeIsLastAdmitted(g: Gate, events: seq<GateEvent>)
    ensures var ts := Admitted(g, events);
      GateRun(g, events).lastFrameTime == if |ts| == 0 then g.lastFrameTime else ts[|ts| - 1]
    decreases |events|
  {
    if |events| > 0 {
      var e := events[0];
      var g1 := GateStep(g, e);
      LastFrameTimeIsLastAdmitted(g1, events[1..]);
      var rest := Admitted(g1, events[1..]);
      if e.Frame? && Admits(g, e.t) {
        var ts := [e.t] + rest;
        if |rest| > 0 {
          assert ts[|ts| - 1] == rest[|rest| - 1];
        }
      }
    }
  }

  /**
   * One request in flight at a time: admissions plus a request outstanding at
   * the start equal completions plus a request outstanding at the end, so
   * between two admitted frames the first one's request has finished.
   */
  lemma {:induction false} OneRequestInFlight(g: Gate, events: seq<GateEvent>)
    ensures |Admitted(g, events)| + (if g.isBusy then 1 else 0)
         == Finished(g, events) + (if GateRun(g, events).isBusy then 1 else 0)
    decreases |events|
  {
    if |events| > 0 {
      OneRequestInFlight(GateStep(g, events[0]), events[1..]);
    }
  }

  /**
   * A release reopens the gate: after a completion, any frame 0.12 s after
   * the last admitted one is admitted. (Nothing releases a gate whose
   * request never completes; the source has no timeout.)
   */
  lemma AdmitsAfterRelease(g: Gate, t: real)
    requires t - g.lastFrameTime >= MinFrameInterval
    ensures GateStep(GateStep(g, Done), Frame(t)) == Gate(true, t)
  {
  }

  /**
   * A frame 0.05 s after an admitted one is dropped; one 0.15 s after it is
   * dropped while the first request is outstanding and admitted once it has
   * finished.
   */
  lemma ThrottleScenarios(t0: real)
    requires t0 >= MinFrameInterval
    ensures GateRun(InitialGate, [Frame(t0), Frame(t0 + 0.05)]) == Gate(true, t0)
    ensures GateRun(InitialGate, [Frame(t0), Frame(t0 + 0.15)]) == Gate(true, t0)
    ensures GateRun(InitialGate, [Frame(t0), Done, Frame(t0 + 0.05)]) == Gate(false, t0)
    ensures GateRun(InitialGate, [Frame(t0), Done, Frame(t0 + 0.15)]) == Gate(true, t0 + 0.15)
  {
    var busy := Gate(true, t0);
    var idle := Gate(false, t0);
    assert GateStep(InitialGate, Frame(t0)) == busy;
    assert GateStep(busy, Done) == idle;
    GateRunPair(InitialGate, Frame(t0), Frame(t0 + 0.05));
    GateRunPair(InitialGate, Frame(t0), Frame(t0 + 0.15));
    GateRunTriple(InitialGate, Frame(t0), Done, Frame(t0 + 0.05));
    GateRunTriple(InitialGate, Frame(t0), Done, Frame(t0 + 0.15));
  }

  lemma GateRunPair(g: Gate, e1: GateEvent, e2: GateEvent)
    ensures GateRun(g, [e1, e2]) == GateStep(GateStep(g, e1), e2)
  {
    var g1 := GateStep(g, e1);
    assert [e1, e2][1..] == [e2];
    assert GateRun(g, [e1, e2]) == GateRun(g1, [e2]);
    assert [e2][1..] == [];
    assert GateRun(g1, [e2]) == GateRun(GateStep(g1, e2), []);
  }

  lemma GateRunTriple(g: Gate, e1: GateEvent, e2: GateEvent, e3: GateEvent)
    ensures GateRun(g, [e1, e2, e3]) == GateStep(GateStep(GateStep(g, e1), e2), e3)
  {
    assert [e1, e2, e3][1..] == [e2, e3];
    assert GateRun(g, [e1, e2, e3]) == GateRun(GateStep(g, e1), [e2, e3]);
    GateRunPair(GateStep(g, e1), e2, e3);
  }

  /** The pipeline: the gate, the view size of the frame in flight, and the published detections. */
  datatype Controller = Controller(gate: Gate, inFlight: Option<Size>, observations: seq<Detection>)

  const Initial: Controller := Controller(InitialGate, None, [])

  /** What can happen next: a frame arrives, or the outstanding request finishes. */
  datatype Event =
    | FrameArrived(timestamp: real, viewSize: Size)
    | RequestFinished(outcome: Outcome)

  /** `isBusy` holds exactly while a request is in flight. */
  predicate Consistent(c: Controller) {
    c.gate.isBusy <==> c.inFlight.Some?
  }

  /** What the gate sees of an event. */
  function GateView(e: Event): GateEvent {
    match e
    case FrameArrived(t, _) => Frame(t)
    case RequestFinished(_) => Done
  }

  /**
   * One event. The gate moves as the two-state machine says; an admitted
   * frame starts a request for its view size, and the end of the outstanding
   * request replaces the published list, whatever the outcome.
   */
  function Step(c: Controller, backend: Backend, e: Event): (c': Controller)
    requires Consistent(c)
    ensures Consistent(c')
    ensures c'.gate == GateStep(c.gate, GateView(e))
    ensures e.FrameArrived? && Admits(c.gate, e.timestamp) ==> c'.inFlight == Some(e.viewSize)
    ensures e.FrameArrived? ==> c'.observations == c.observations
    ensures e.FrameArrived? && !Admits(c.gate, e.timestamp) ==> c' == c
    ensures e.RequestFinished? && c.gate.isBusy ==>
      c'.inFlight == None && c'.observations == Publish(backend, e.outcome, c.inFlight.value)
    ensures e.RequestFinished? && !c.gate.isBusy ==> c' == c
  {
    match e
    case FrameArrived(t, viewSize) =>
      var g := Admit(c.gate, t);
      if g.isBusy && !c.gate.isBusy then Controller(g, Some(viewSize), c.observations) else c
    case RequestFinished(outcome) =>
      match c.inFlight
      case None => c
      case Some(viewSize) => Controller(Release(c.gate), None, Publish(backend, outcome, viewSize))
  }

  /**
   * Every completion path, for every outcome, leaves the gate idle with
   * `lastFrameTime` as it was, and publishes a list: nothing for an error, a
   * throwing `perform` or unrecognised results.
   */
  lemma EveryCompletionClearsBusy(c: Controller, backend: Backend, outcome: Outcome)
    requires Consistent(c) && c.gate.isBusy
    ensures var c' := Step(c, backend, RequestFinished(outcome));
      && c'.gate == Gate(false, c.gate.lastFrameTime)
      && c'.inFlight == None
      && (outcome.RequestError? || outcome.PerformThrew? || outcome.Unrecognised? ==> c'.observations == [])
  {
  }

  /** The pipeline after a sequence of events. */
  function Run(c: Controller, backend: Backend, events: seq<Event>): (c': Controller)
    requires Consistent(c)
    ensures Consistent(c')
    decreases |events|
  {
    if |events| == 0 then c else Run(Step(c, backend, events[0]), backend, events[1..])
  }

  /** What the gate sees of a sequence of events. */
  function GateViews(events: seq<Event>): (r: seq<GateEvent>)
    ensures |r| == |events|
    ensures forall i :: 0 <= i < |events| ==> r[i] == GateView(events[i])
  {
    seq(|events|, i requires 0 <= i < |events| => GateView(events[i]))
  }

  /**
   * The pipeline's gate follows the two-state machine over what the gate sees,
   * so the spacing and one-in-flight facts above hold for the whole pipeline.
   */
  lemma {:induction false} RunFollowsGate(c: Controller, backend: Backend, events: seq<Event>)
    requires Consistent(c)
    ensures Run(c, backend, events).gate == GateRun(c.gate, GateViews(events))
    decreases |events|
  {
    if |events| > 0 {
      var views := GateViews(events);
      assert views[1..] == GateViews(events[1..]);
      RunFollowsGate(Step(c, backend, events[0]), backend, events[1..]);
    }
  }
}

=== FILE: text.dfy ===
/**
 * String helpers the Swift code takes from its standard library.
 * `String.lowercased()` is modelled on the ASCII range only: every upper-case
 * Latin letter `A`..`Z` becomes its lower-case partner and every other
 * character is left as it is.
 */
module Text {

  predicate IsUpper(c: char) {
    'A' <= c <= 'Z'
  }

  /** Lower-cases one character. */
  function LowerChar(c: char): (r: char)
    ensures !IsUpper(r)
    ensures IsUpper(c) ==> r as int == c as int + 32
    ensures !IsUpper(c) ==> r == c
  {
    if IsUpper(c) then (c as int + 32) as char else c
  }

  /** `s.lowercased()`: the same string with every character lower-cased. */
  function Lower(s: string): (r: string)
    ensures |r| == |s|
    ensures forall i :: 0 <= i < |s| ==> r[i] == LowerChar(s[i])
  {
    if |s| == 0 then "" else [LowerChar(s[0])] + Lower(s[1..])
  }

  /** A string with no upper-case letter. */
  predicate IsLowercase(s: string) {
    forall i :: 0 <= i < |s| ==> !IsUpper(s[i])
  }

  /** Lower-casing changes exactly the strings that hold an upper-case letter. */
  lemma LowerFixedPoint(s: string)
    ensures Lower(s) == s <==> IsLowercase(s)
  {
    if IsLowercase(s) {
      assert forall i :: 0 <= i < |s| ==> Lower(s)[i] == s[i];
    } else {
      var i :| 0 <= i < |s| && IsUpper(s[i]);
      assert Lower(s)[i] != s[i];
    }
  }

  /** Lower-casing is idempotent, and its result is always lower-case. */
  lemma LowerIdempotent(s: string)
    ensures IsLowercase(Lower(s))
    ensures Lower(Lower(s)) == Lower(s)
  {
    LowerFixedPoint(Lower(s));
  }

}

=== FILE: vocab.dfy ===
/**
 * `DetectorModel.save(observation:)`: the upsert into the saved vocabulary.
 * An existing entry whose English word matches case-insensitively has its
 * count bumped and its last-seen time renewed; otherwise a new entry with
 * count 1 goes to the front of the list. Writing the list to disk is not
 * modelled, and the clock is the parameter `now`.
 */
module Vocab {
  import opened Wrappers
  import opened Text
  import opened Detections

  /** A `VocabItem`; the `id` is not modelled and dates are reals. */
  datatype VocabItem = VocabItem(english: string, japanese: string, count: int, firstSavedAt: real, lastSeenAt: real)

  /** The new list and the item `save` returns. */
  datatype SaveResult = SaveResult(saved: seq<VocabItem>, item: VocabItem)

  /**
   * The match `save` uses: equal after lower-casing both sides, that is, of
   * the same length and equal character by character up to case.
   */
  function SameWord(a: string, b: string): (r: bool)
    ensures r <==> |a| == |b| && forall i :: 0 <= i < |a| ==> LowerChar(a[i]) == LowerChar(b[i])
  {
    LowerEqualCharwise(a, b);
    Lower(a) == Lower(b)
  }

  lemma {:induction false} LowerEqualCharwise(a: string, b: string)
    ensures Lower(a) == Lower(b) <==> |a| == |b| && forall i :: 0 <= i < |a| ==> LowerChar(a[i]) == LowerChar(b[i])
  {
    var la, lb := Lower(a), Lower(b);
    if la == lb {
      forall i | 0 <= i < |a|
        ensures LowerChar(a[i]) == LowerChar(b[i])
      {
        assert la[i] == lb[i];
      }
    } else if |a| == |b| {
      var k :| 0 <= k < |la| && la[k] != lb[k];
      assert LowerChar(a[k]) != LowerChar(b[k]);
    }
  }

  /** `i` is the index of the first entry whose word matches `english`. */
  predicate IsFirstMatch(saved: seq<VocabItem>, english: string, i: int) {
    && 0 <= i < |saved|
    && SameWord(saved[i].english, english)
    && forall j :: 0 <= j < i ==> !SameWord(saved[j].english, english)
  }

  /** `saved.firstIndex(where:)` for the entries whose word matches `english`. */
  function FirstMatch(saved: seq<VocabItem>, english: string): (r: Option<nat>)
    ensures r.None? <==> forall j :: 0 <= j < |saved| ==> !SameWord(saved[j].english, english)
    ensures r.Some? ==> IsFirstMatch(saved, english, r.value)
  {
    if |saved| == 0 then None
    else if SameWord(saved[0].english, english) then Some(0)
    else
      match FirstMatch(saved[1..], english)
      case None => None
      case Some(i) => Some(i + 1)
  }

  /**
   * `save(observation:)`. On a match at the first matching index the entry's
   * count grows by one and its last-seen time becomes `now`, and nothing else
   * in the list changes; with no match a fresh entry (count 1, the
   * observation's words, both dates `now`) is put in front. The returned item
   * is the entry as it now stands in the list.
   */
  function Save(saved: seq<VocabItem>, observation: Detection, now: real): (r: SaveResult)
    ensures (forall j :: 0 <= j < |saved| ==> !SameWord(saved[j].english, observation.english)) ==>
      r.item == VocabItem(observation.english, observation.japanese, 1, now, now) &&
      r.saved == [r.item] + saved
    ensures forall i :: IsFirstMatch(saved, observation.english, i) ==>
        && |r.saved| == |saved|
        && r.saved[i] == r.item
        && r.item == saved[i].(count := saved[i].count + 1, lastSeenAt := now)
        && forall j :: 0 <= j < |saved| && j != i ==> r.saved[j] == saved[j]
  {
    match FirstMatch(saved, observation.english)
    case Some(idx) =>
      var item := saved[idx].(count := saved[idx].count + 1, lastSeenAt := now);
      SaveResult(saved[idx := item], item)
    case None =>
      var item := VocabItem(observation.english, observation.japanese, 1, now, now);
      SaveResult([item] + saved, item)
  }

  /** The sum of the counts in the list. */
  function TotalCount(saved: seq<VocabItem>): int {
    if |saved| == 0 then 0 else saved[0].count + TotalCount(saved[1..])
  }

  /** No two entries hold the same word up to case. */
  predicate UniqueWords(saved: seq<VocabItem>) {
    forall i, j :: 0 <= i < |saved| && 0 <= j < |saved| && i != j ==>
      !SameWord(saved[i].english, saved[j].english)
  }

  /** After a save, looking the word up finds the returned item. */
  lemma SaveThenFind(saved: seq<VocabItem>, observation: Detection, now: real)
    ensures var r := Save(saved, observation, now);
      FirstMatch(r.saved, observation.english).Some? &&
      r.saved[FirstMatch(r.saved, observation.english).value] == r.item
  {
    var r := Save(saved, observation, now);
    match FirstMatch(saved, observation.english)
    case Some(idx) =>
      assert SameWord(r.saved[idx].english, observation.english);
      forall j | 0 <= j < idx
        ensures !SameWord(r.saved[j].english, observation.english)
      {
        assert r.saved[j] == saved[j];
      }
    case None =>
      assert SameWord(r.saved[0].english, observation.english);
  }

  /** Saving the same word twice adds at most one entry. */
  lemma SaveTwiceAddsOneEntry(saved: seq<VocabItem>, observation: Detection, t1: real, t2: real)
    ensures var once := Save(saved, observation, t1).saved;
      var twice := Save(once, observation, t2).saved;
      |twice| == |once| <= |saved| + 1
  {
    SaveThenFind(saved, observation, t1);
  }

  /** Bumping one entry's count by one raises the total by one. */
  lemma {:induction false} TotalCountBump(saved: seq<VocabItem>, i: int, item: VocabItem)
    requires 0 <= i < |saved|
    requires item.count == saved[i].count + 1
    ensures TotalCount(saved[i := item]) == TotalCount(saved) + 1
  {
    if i > 0 {
      assert saved[i := item][1..] == saved[1..][i - 1 := item];
      TotalCountBump(saved[1..], i - 1, item);
    }
  }

  /** Every save adds exactly one to the total count. */
  lemma SaveCountsOnce(saved: seq<VocabItem>, observation: Detection, now: real)
    ensures TotalCount(Save(saved, observation, now).saved) == TotalCount(saved) + 1
  {
    match FirstMatch(saved, observation.english)
    case Some(idx) =>
      TotalCountBump(saved, idx, Save(saved, observation, now).item);
    case None =>
      var r := Save(saved, observation, now);
      assert r.saved[1..] == saved;
  }

  /** A list without case-insensitive duplicates keeps that property through a save. */
  lemma SaveKeepsWordsUnique(saved: seq<VocabItem>, observation: Detection, now: real)
    requires UniqueWords(saved)
    ensures UniqueWords(Save(saved, observation, now).saved)
  {
    var r := Save(saved, observation, now);
    match FirstMatch(saved, observation.english)
    case Some(idx) =>
      forall i, j | 0 <= i < |r.saved| && 0 <= j < |r.saved| && i != j
        ensures !SameWord(r.saved[i].english, r.saved[j].english)
      {
        assert r.saved[i].english == saved[i].english;
        assert r.saved[j].english == saved[j].english;
      }
    case None =>
      forall i, j | 0 <= i < |r.saved| && 0 <= j < |r.saved| && i != j
        ensures !SameWord(r.saved[i].english, r.saved[j].english)
      {
        if i > 0 && j > 0 {
          assert r.saved[i] == saved[i - 1] && r.saved[j] == saved[j - 1];
        } else if i == 0 {
          assert r.saved[j] == saved[j - 1];
        } else {
          assert r.saved[i] == saved[i - 1];
        }
      }
  }
}

=== FILE: wrappers.dfy ===
/** Optional values, used where the Swift code has an optional (`T?`). */
module Wrappers {

  datatype Option<+T> = None | Some(value: T)

}
